=== FILE: README.md ===
# ContentManager decision logic, modelled in Dafny

`ContentManager` is an Android helper that lets an app take a photo with the
camera or pick a file, and reports the outcome through a
`PickContentListener`: content loaded, progress, error, or canceled. Most of
the class is platform plumbing. This project models the decision logic
inside it, with every platform call turned into an input:

- **Device allow-list** (`DeviceQuirks`). `isSetPreDefinedCameraUri` decides
  whether to register a location with the media index before the camera
  starts. It is modelled as a table of substring rules over the five
  lower-cased `Build` strings, plus the source's "set the flag, never clear
  it" fold over that table.
- **Camera result** (`Camera`). `onCameraIntentResult` works out where the
  photo went. The steps are:
  1. read the newest two media-index rows, with the staleness guard against
     the start date;
  2. fall back to the intent's data, then to the registered location;
  3. swap an empty file with the registered location;
  4. resolve content URIs with `getFileUriFromContentUri`;
  5. report exactly one callback.
- **Session** (`Session`). The library's fields, driven by:
  - `pickContent` and `takePhoto`;
  - `onActivityResult`, including the null-intent branch of
    `handleContentData`;
  - `onRequestPermissionsResult`;
  - firings of the progress ticker.

  Each step returns the new fields and the callbacks it made.
- **Progress ticker** (`Progress`). `consumeProgress` adds 1 per firing and
  reschedules below 100. Its counter is never reset.
- **Saved state** (`InstanceState`). `onSaveInstanceState` and
  `onRestoreInstanceState` work over a bundle modelled as a map from key to
  a typed value.
- **File extension** (`FileExtension`). The sample app's `fileExt`.

Helpers:
- `Strings` gives the meaning of `contains`, `startsWith`, `indexOf`,
  `lastIndexOf` and ASCII `toLowerCase`.
- `Callbacks` holds the listener events and the `Content` enum.
- `Wrappers` holds `Option`, which stands for Java's `null`.

URIs are their string forms. `Uri.fromFile(new File(p))` is `"file://" + p`.
Dates are milliseconds, and `Date.after` is a strict `>`.

The model keeps these behaviours of the code, which are easy to mistake:
- A zero-length photo is swapped with the registered location whenever that
  location is non-null. The code never checks whether the registered file is
  itself non-empty (`Camera.SwapIfEmpty`), so an empty registered file is
  still reported as loaded (`Camera.StaleRowFallsBackToPreDefined`).
- The progress ticker does not stop at a terminal callback. It runs to 100
  whatever happens (`Session.PickReportsProgressRun`). Its counter is never reset, so a second pick reports a
  single `101` (`Progress.SecondRunReportsOnce`).
- `Content` has only `VIDEO` and `IMAGE`. There is no `FILE` kind.
- A restore reproduces only the fields whose keys are in the bundle. The
  third location is never saved (`InstanceState.SaveRestoreRoundTrip`).
- A pick with no app to handle it reports nothing on SDK 19 and later
  (`Session.PickContentStep`).

Some behaviours of the code are proved as stated rather than corrected:
- An empty media index reports the photo of an earlier operation
  (`Camera.EmptyIndexReportsEarlierPhoto`).
- A missing start date disables the staleness guard
  (`Camera.MissingStartDateKeepsNewestRow`).
- A denied permission produces no callback at all (`Session.DenialIsSilent`).

## Model

| member | source | states |
|---|---|---|
| `DeviceQuirks.FromBuild` | contentmanager/src/main/java/com/stfalcon/contentmanager/ContentManager.java:250-254 | every `Build` string is lower-cased before any rule is matched |
| `DeviceQuirks.FromBuildIgnoresCase` | contentmanager/src/main/java/com/stfalcon/contentmanager/ContentManager.java:250-254 | two sets of `Build` strings that differ only in the case of their letters give the same device and the same decision |
| `DeviceQuirks.ApplyRules` | contentmanager/src/main/java/com/stfalcon/contentmanager/ContentManager.java:244-305 | a matching rule sets the flag and no rule clears it; the flag ends true exactly when it started true or some rule matches |
| `DeviceQuirks.IsSetPreDefinedCameraUri` | contentmanager/src/main/java/com/stfalcon/contentmanager/ContentManager.java:243-306 | the decision is true exactly when some rule of the allow-list matches the device |
| `DeviceQuirks.OtherVendorsAlwaysSet` | contentmanager/src/main/java/com/stfalcon/contentmanager/ContentManager.java:257-259 | a manufacturer containing neither "samsung" nor "sony" always gets a registered location |
| `DeviceQuirks.MatchingRuleIsListed` | contentmanager/src/main/java/com/stfalcon/contentmanager/ContentManager.java:257-302 | each table rule that matches is one of the cases of the source's if-chain |
| `DeviceQuirks.ListedHasMatchingRule` | contentmanager/src/main/java/com/stfalcon/contentmanager/ContentManager.java:257-302 | each case of the source's if-chain is matched by a table rule |
| `DeviceQuirks.CapitalisedSonyNotSet` | contentmanager/src/main/java/com/stfalcon/contentmanager/ContentManager.java:250-259 | a phone reporting "Sony" passes the vendor rule on its raw strings but matches no rule once they are lower-cased |
| `DeviceQuirks.DecisionCases` | contentmanager/src/main/java/com/stfalcon/contentmanager/ContentManager.java:257-302 | true if and only if the vendor is neither Samsung nor Sony, or one of the thirteen listed model/build conditions holds |
| `DeviceQuirks.GalaxyS3RetailNotSet` | contentmanager/src/main/java/com/stfalcon/contentmanager/ContentManager.java:246-303 | a retail Samsung GT-I9300 gets no registered location |
| `DeviceQuirks.GalaxyS2UserdebugSet` | contentmanager/src/main/java/com/stfalcon/contentmanager/ContentManager.java:273-275 | a userdebug GT-I9100 build is re-enabled |
| `Callbacks.Mime` | contentmanager/src/main/java/com/stfalcon/contentmanager/ContentManager.java:537-551 | `Content.toString` is a seven-character "kind/*" filter: "image/*" exactly for IMAGE and "video/*" exactly for VIDEO |
| `Callbacks.MimeInjective` | contentmanager/src/main/java/com/stfalcon/contentmanager/ContentManager.java:537-551 | distinct kinds have distinct filters |
| `Camera.IntentData` | contentmanager/src/main/java/com/stfalcon/contentmanager/ContentManager.java:357-362 | a null intent yields no URI (the exception is ignored); otherwise its data |
| `Camera.GetFileUriFromContentUri` | contentmanager/src/main/java/com/stfalcon/contentmanager/ContentManager.java:498-519 | null stays null; a URI not starting with "content" comes back unchanged; a changed URI was a content URI and is now a file URI; a successful query gives the file URI of its DATA path; a failed query gives the URI back unchanged |
| `Camera.ResolveKeepsFileUri` | contentmanager/src/main/java/com/stfalcon/contentmanager/ContentManager.java:498-519 | a file URI built from an index row is never rewritten by the resolution |
| `Camera.ReadIndex` | contentmanager/src/main/java/com/stfalcon/contentmanager/ContentManager.java:313-355 | the newest row becomes the photo if and only if it was taken strictly after the start date (or the start date is null); a stale row clears the photo; orientation and third location change only from rows newer than the start date; an empty index changes nothing |
| `Camera.FallBack` | contentmanager/src/main/java/com/stfalcon/contentmanager/ContentManager.java:357-366 | a missing photo is taken from the intent's data, and failing that from the registered location; nothing else changes |
| `Camera.SwapIfEmpty` | contentmanager/src/main/java/com/stfalcon/contentmanager/ContentManager.java:368-377 | an empty chosen file trades places with a non-null registered location; the pair is otherwise unchanged and never loses a URI |
| `Camera.ResolveUris` | contentmanager/src/main/java/com/stfalcon/contentmanager/ContentManager.java:379-390 | both locations are resolved; the third location survives if and only if it names neither of them |
| `Camera.OnCameraIntentResult` | contentmanager/src/main/java/com/stfalcon/contentmanager/ContentManager.java:311-402 | exactly one terminal callback: cancel with no change for a non-OK code; otherwise the photo is loaded as "image", and the error "" occurs if and only if no candidate location existed |
| `Camera.FreshPhotoIsReported` | contentmanager/src/main/java/com/stfalcon/contentmanager/ContentManager.java:327-336 | a non-empty photo taken after the start is reported and its orientation recorded |
| `Camera.StaleRowFallsBackToPreDefined` | contentmanager/src/main/java/com/stfalcon/contentmanager/ContentManager.java:334-377 | a stale newest row with no intent data falls back to the registered location, which is reported as loaded even when its file is empty |
| `Camera.StaleRowPrefersIntentData` | contentmanager/src/main/java/com/stfalcon/contentmanager/ContentManager.java:357-366 | the intent's data is preferred to the registered location |
| `Camera.EmptyIndexReportsEarlierPhoto` | contentmanager/src/main/java/com/stfalcon/contentmanager/ContentManager.java:326-331 | the photo field is not reset, so an empty index reports the earlier photo |
| `Camera.MissingStartDateKeepsNewestRow` | contentmanager/src/main/java/com/stfalcon/contentmanager/ContentManager.java:331-350 | with a null start date the newest row is reported whatever its date, and the rotation is kept |
| `Camera.EmptyFileSwapsWithPreDefined` | contentmanager/src/main/java/com/stfalcon/contentmanager/ContentManager.java:368-380 | an empty chosen file makes the registered location the reported photo, and the chosen one the registered location |
| `Camera.ThirdLocationOrigin` | contentmanager/src/main/java/com/stfalcon/contentmanager/ContentManager.java:341-347 | a third location comes only from an earlier value or from the second row taken after the start date |
| `Progress.Fire` | contentmanager/src/main/java/com/stfalcon/contentmanager/ContentManager.java:459-469 | a firing adds exactly 1, reports the new value, and reschedules if and only if the value is below 100 |
| `Progress.Run` | contentmanager/src/main/java/com/stfalcon/contentmanager/ContentManager.java:459-469 | a run from counter n reports n+1, n+2, ... up to 100, or the single value n+1 when n is 99 or more |
| `Progress.RunIsMonotone` | contentmanager/src/main/java/com/stfalcon/contentmanager/ContentManager.java:463-466 | reported values strictly increase, are positive and never terminal, and a run from below 100 ends at 100 |
| `Progress.SecondRunReportsOnce` | contentmanager/src/main/java/com/stfalcon/contentmanager/ContentManager.java:459-469 | the counter is not reset: after a full run, the next run reports only 101 |
| `InstanceState.Save` | contentmanager/src/main/java/com/stfalcon/contentmanager/ContentManager.java:123-134 | the rotation is always written; the date and the URIs are written only when non-null; foreign keys, and own keys of null fields, are untouched |
| `InstanceState.ReadDate` | contentmanager/src/main/java/com/stfalcon/contentmanager/ContentManager.java:142-144 | a missing or non-string date value gives null; otherwise the date is parsed |
| `InstanceState.Restore` | contentmanager/src/main/java/com/stfalcon/contentmanager/ContentManager.java:140-155 | a null bundle changes nothing; only fields with present keys are overwritten; a non-string URI value ends in `Uri.parse(null)` throwing |
| `InstanceState.SaveRestoreRoundTrip` | contentmanager/src/main/java/com/stfalcon/contentmanager/ContentManager.java:123-155 | restore after save gives back the start date, both URIs and the rotation; null fields keep the restoring instance's values |
| `InstanceState.RestoreIntoFreshInstance` | contentmanager/src/main/java/com/stfalcon/contentmanager/ContentManager.java:123-155 | a new instance restoring a saved bundle has the saved fields exactly, with no third location |
| `InstanceState.RestoreIsIdempotent` | contentmanager/src/main/java/com/stfalcon/contentmanager/ContentManager.java:140-155 | restoring the same bundle twice equals restoring it once |
| `Session.PickContentStep` | contentmanager/src/main/java/com/stfalcon/contentmanager/ContentManager.java:178-204 | the pick is remembered before the permission check; the target file is set only with permission; no callback and no ticker runnable posted |
| `Session.TakePhotoStep` | contentmanager/src/main/java/com/stfalcon/contentmanager/ContentManager.java:206-237 | the photo task is remembered first; with permission, the error "" is reported if and only if storage is unmounted or no camera exists, and without permission nothing is reported; with storage the start date is set, and the registered location changes only when the allow-list, applied to the lower-cased `Build` strings, says so |
| `Session.CapitalisedSonyKeepsLocation` | contentmanager/src/main/java/com/stfalcon/contentmanager/ContentManager.java:206-224 | a phone reporting its manufacturer as "Sony" keeps its old registered location when a photo is taken |
| `Session.PickerResult` | contentmanager/src/main/java/com/stfalcon/contentmanager/ContentManager.java:409-453 | a non-OK result cancels; a null intent is the error "Data null"; content is loaded if and only if the intent carries a data URI and the copy succeeded into an existing target, with the kind's MIME filter; a failed copy reports its exception's message, and a missing target the empty message |
| `Session.ActivityResultStep` | contentmanager/src/main/java/com/stfalcon/contentmanager/ContentManager.java:160-171 | codes 15 and 16 give exactly one terminal callback, the picker's or the camera's own result; any other code does nothing; only the camera path changes fields; exactly an OK picker result with an intent posts one ticker runnable |
| `Session.PickerResultReports` | contentmanager/src/main/java/com/stfalcon/contentmanager/ContentManager.java:160-166 | a non-OK picker result reports a cancel and an OK one without an intent the error "Data null", with no field changed and nothing posted |
| `Session.PermissionsResultStep` | contentmanager/src/main/java/com/stfalcon/contentmanager/ContentManager.java:636-651 | the remembered task is re-run only for code 333 with a first grant of GRANTED; otherwise no change and no callback |
| `Session.ProgressStep` | contentmanager/src/main/java/com/stfalcon/contentmanager/ContentManager.java:459-469 | with nothing posted nothing happens; otherwise the counter moves by exactly 1, the new value is reported, and the runnable stays posted only while the value is below 100 |
| `Session.TickerReportsRun` | contentmanager/src/main/java/com/stfalcon/contentmanager/ContentManager.java:459-469 | one posted runnable reports exactly the values of a ticker run and then leaves nothing posted |
| `Session.PickReportsProgressRun` | contentmanager/src/main/java/com/stfalcon/contentmanager/ContentManager.java:409-469 | when nothing was posted before, an OK pick with an intent is followed by one ticker run from the shared counter, after which firings report nothing |
| `Session.Step` | contentmanager/src/main/java/com/stfalcon/contentmanager/ContentManager.java:106-107 | every step keeps a remembered pick's content kind known, and makes at most one callback; a firing with nothing posted does nothing |
| `Session.InitialIsValid` | contentmanager/src/main/java/com/stfalcon/contentmanager/ContentManager.java:72-113 | the constructed library satisfies the invariant |
| `Session.ResultEndsOperation` | contentmanager/src/main/java/com/stfalcon/contentmanager/ContentManager.java:160-171 | every pick or camera result ends in exactly one terminal callback |
| `Session.DenialIsSilent` | contentmanager/src/main/java/com/stfalcon/contentmanager/ContentManager.java:636-651 | a denied or foreign permission result changes nothing and reports nothing |
| `Session.GrantedPickResumes` | contentmanager/src/main/java/com/stfalcon/contentmanager/ContentManager.java:636-643 | a pick denied and then granted ends where a permitted pick would |
| `Session.ProgressNeverResets` | contentmanager/src/main/java/com/stfalcon/contentmanager/ContentManager.java:99 | across any input sequence the counter never decreases, and only ticker firings move it |
| `FileExtension.StripQuery` | sample/src/main/java/com/stfalcon/contentmanager_sample/MainActivity.java:77-79 | the kept text is a prefix without '?', ending where the first '?' was |
| `FileExtension.AfterLastDot` | sample/src/main/java/com/stfalcon/contentmanager_sample/MainActivity.java:80-83 | absent if and only if there is no '.' before the query; otherwise the text after the last '.', holding no '.' or '?' |
| `FileExtension.CutAt` | sample/src/main/java/com/stfalcon/contentmanager_sample/MainActivity.java:84-89 | a prefix without the cut character, ending where its first occurrence was |
| `FileExtension.FileExt` | sample/src/main/java/com/stfalcon/contentmanager_sample/MainActivity.java:76-93 | null if and only if no '.' precedes the first '?'; a result holds none of '.', '?', '%', '/' or any upper-case letter; it is a prefix of the lower-cased text after the last '.', and all of it when that text has no '%' or '/' |
| `FileExtension.CutTwiceIsFirstStop` | sample/src/main/java/com/stfalcon/contentmanager_sample/MainActivity.java:84-89 | cutting at '%' and then at '/' cuts at the first of either |
| `FileExtension.FileExtIsTextUpToFirstStop` | sample/src/main/java/com/stfalcon/contentmanager_sample/MainActivity.java:83-90 | the result is exactly the lower-cased text between the last '.' and the first '%' or '/' |
| `FileExtension.OnlyQueryFreePartMatters` | sample/src/main/java/com/stfalcon/contentmanager_sample/MainActivity.java:77-80 | two texts that agree before their first '?' have the same extension |
| `FileExtension.QueryIsIgnored` | sample/src/main/java/com/stfalcon/contentmanager_sample/MainActivity.java:77-79 | characters from the first '?' onward never affect the result |

## Left out

- Intent construction and launching, `resolveActivity` and the SDK-version branches of `pickContent`/`takePhoto`: platform calls. A step records only what the library remembers and reports.
- `MediaStore`/`ContentResolver` queries, cursors and the `ContentValues` insert: replaced by the `MediaIndex` rows and oracles and by `Platform.inserted`. An insert that throws is not modelled.
- The copy worker thread, `FileChannel.transferTo` and `Handler` timing: the worker's outcome is the `CopyOutcome` input. Each firing of a posted ticker runnable is a step of its own, so its interleaving with the pick's terminal callback is not modelled.
- `createFile`: a filesystem call, given as `Platform.created`.
- `dateToString`/`stringToDate` (`SimpleDateFormat`): library code, given as a `DateCodec` parameter. The round trip is proved for any codec whose parse undoes its format.
- `fixImageRatation`/`rotate`: bitmap and EXIF graphics.
- `isStoragePermissionGranted`: a runtime-permission API, given as `Platform.permitted`. The permission request it issues is no listener callback.
- The sample app's views, image loader, click handling and toasts. Its references to `Content.FILE` and `onStartContentLoading` have nothing to match in the library.
- `Camera.FileUri`: `Uri.fromFile` also makes the path absolute, normalises it and percent-encodes it. This is not modelled.
- `Camera.ReadIndex`: the DATA column is taken to be non-null. A null path in the newest row would throw before any field is set. A null path in a second row taken after the start date would throw only after the photo and the rotation were set from the newest row, so only the third location would stay unchanged.
- `Camera.MediaIndex`: a URI whose path is null makes `new File(null)` throw, which skips the swap. The file-length oracle must report a positive length for such a URI.
- `Strings.ToLower`: lower-cases ASCII letters only. Java's full Unicode lower-casing is not modelled.
- `Session.PickerResult`: an exception with a null message is reported as the empty string. So is the exception that opening a null data URI throws, whose message is the platform's.
- `Session.ProgressStep`: the counter is unbounded. Java's 32-bit `int` would wrap only after 2^31 firings.
- `InstanceState.Restore`: a bundle key holding a null string is not representable. A URI is taken to equal `Uri.parse` of its own string.

=== FILE: callbacks.dfy ===
/**
 * What the library reports to its host: the `PickContentListener`
 * callbacks, and the `Content` kinds a pick can ask for.
 */
module Callbacks {

  /** `ContentManager.Content`: the library declares only these two kinds. */
  datatype Content = Video | Image

  /** `Content.toString()`: the MIME filter handed to the picker and reported with a picked file. */
  function Mime(c: Content): (r: string)
    ensures |r| == 7 && r[5..] == "/*"
    ensures r == "image/*" <==> c == Image
    ensures r == "video/*" <==> c == Video
  {
    match c
    case Video => "video/*"
    case Image => "image/*"
  }

  /** Distinct kinds announce distinct MIME filters, so a listener can tell them apart. */
  lemma MimeInjective(a: Content, b: Content)
    ensures Mime(a) == Mime(b) ==> a == b
  {
  }

  /** One invocation of a `PickContentListener` method. */
  datatype Event =
    | Loaded(uri: string, contentType: string)   // onContentLoaded
    | LoadProgress(percent: int)                 // onLoadContentProgress
    | Error(message: string)                     // onError
    | Canceled                                   // onCanceled

  /** The callbacks that end an operation; progress is the only one that may repeat. */
  predicate IsTerminal(e: Event) {
    !e.LoadProgress?
  }
}

=== FILE: camera.dfy ===
/**
 * `onCameraIntentResult`: working out where the camera stored the photo it
 * just took. The media index is asked for its newest rows; the newest is
 * taken only when it was taken after the camera was started (an older row
 * is a stale photo). Otherwise the library falls back to the URI the
 * camera returned and then to the location it registered before starting
 * the camera. An empty file swaps places with that registered location, and
 * content URIs are resolved to file URIs before the result is reported.
 *
 * The platform is replaced by inputs: the index rows (newest first), a
 * file-length oracle and the answer of the query that maps a content URI to
 * a file path. URIs are their string forms and dates are milliseconds.
 */
module Camera {
  import opened Wrappers
  import opened Strings
  import opened Callbacks

  /** `Activity.RESULT_OK` */
  const RESULT_OK: int := -1

  /** `Uri.fromFile(new File(path))`, as the URI's string form. */
  function FileUri(path: string): (u: string)
    ensures StartsWith(u, "file://") && u[7..] == path
  {
    "file://" + path
  }

  /** A file URI never looks like a content URI. */
  lemma FileUriIsNotContent(path: string)
    ensures !StartsWith(FileUri(path), "content")
  {
    assert FileUri(path)[0] == 'f';
  }

  /** One media-index row: the DATA, DATE_TAKEN and ORIENTATION columns. */
  datatype Row = Row(path: string, dateTaken: int, orientation: int)

  /** The camera's result intent; `data` is `getData()`. */
  datatype Intent = Intent(data: Option<string>)

  /** `intent.getData()`, where a null intent throws and the exception is ignored. */
  function IntentData(intent: Option<Intent>): (r: Option<string>)
    ensures intent.None? ==> r.None?
    ensures intent.Some? ==> r == intent.value.data
  {
    match intent
    case None => None
    case Some(i) => i.data
  }

  /**
   * The library's fields that the camera flow reads and writes:
   * `dateCameraIntentStarted`, `preDefinedCameraUri`, `photoUri`,
   * `photoUriIn3rdLocation` and `rotateXDegrees`.
   */
  datatype CameraState = CameraState(
    started: Option<int>,
    preDefined: Option<string>,
    photo: Option<string>,
    third: Option<string>,
    rotation: int)

  /** The field values of a newly constructed `ContentManager`. */
  const Fresh: CameraState := CameraState(None, None, None, None, 0)

  /**
   * What the platform answers while a camera result is processed: the index
   * rows ordered newest first, the length of the file a URI's path names,
   * and the DATA column the content resolver returns for a content URI
   * (`None` when that query throws, is empty or yields a null path).
   */
  datatype MediaIndex = MediaIndex(rows: seq<Row>, fileLength: string -> int, dataPath: string -> Option<string>)

  /**
   * `getFileUriFromContentUri`: a URI whose text starts with "content" is
   * replaced by the file URI of its DATA column when the query answers; every
   * other URI, and null, comes back unchanged.
   */
  function GetFileUriFromContentUri(dataPath: string -> Option<string>, u: Option<string>): (r: Option<string>)
    ensures u.None? <==> r.None?
    ensures u.Some? && !StartsWith(u.value, "content") ==> r == u
    ensures r != u ==> StartsWith(u.value, "content") && StartsWith(r.value, "file://")
    ensures u.Some? && StartsWith(u.value, "content") && dataPath(u.value).Some? ==>
              r == Some(FileUri(dataPath(u.value).value))
    ensures u.Some? && StartsWith(u.value, "content") && dataPath(u.value).None? ==> r == u
  {
    match u
    case None => None
    case Some(s) =>
      if StartsWith(s, "content") then
        match dataPath(s)
        case Some(p) => Some(FileUri(p))
        case None => u
      else u
  }

  /** A file URI is never rewritten by the resolution. */
  lemma ResolveKeepsFileUri(dataPath: string -> Option<string>, path: string)
    ensures GetFileUriFromContentUri(dataPath, Some(FileUri(path))) == Some(FileUri(path))
  {
    FileUriIsNotContent(path);
  }

  /** `dateOfPicture.after(dateCameraIntentStarted)` for a known start date. */
  predicate TakenAfter(row: Row, started: int) {
    row.dateTaken > started
  }

  /**
   * The first step of `onCameraIntentResult`, reading the media index. The newest row becomes the photo only
   * when it was taken strictly after the start date, and its orientation is
   * then recorded; a stale row clears the photo. The second row is recorded
   * as the third location when it too is newer than the start date. Without
   * a start date the comparison throws after the newest row was assigned;
   * the exception is swallowed and nothing else changes. An empty index
   * changes nothing at all: the photo of an earlier operation stays.
   */
  function ReadIndex(s: CameraState, rows: seq<Row>): (r: CameraState)
    ensures r.started == s.started && r.preDefined == s.preDefined
    ensures |rows| == 0 ==> r == s
    ensures |rows| > 0 ==> (r.photo.Some? <==> s.started.None? || TakenAfter(rows[0], s.started.value))
    ensures |rows| > 0 && r.photo.Some? ==> r.photo.value == FileUri(rows[0].path)
    ensures r.rotation != s.rotation ==> |rows| > 0 && s.started.Some? && TakenAfter(rows[0], s.started.value)
    ensures |rows| > 0 && s.started.Some? && TakenAfter(rows[0], s.started.value) ==> r.rotation == rows[0].orientation
    ensures r.third != s.third ==> |rows| > 1 && s.started.Some? && TakenAfter(rows[1], s.started.value)
    ensures |rows| > 1 && s.started.Some? && TakenAfter(rows[1], s.started.value) ==> r.third == Some(FileUri(rows[1].path))
  {
    if |rows| == 0 then s
    else
      match s.started
      case None => s.(photo := Some(FileUri(rows[0].path)))
      case Some(t) =>
        var s1 :=
          if TakenAfter(rows[0], t) then s.(photo := Some(FileUri(rows[0].path)), rotation := rows[0].orientation)
          else s.(photo := None);
        if |rows| > 1 && TakenAfter(rows[1], t) then s1.(third := Some(FileUri(rows[1].path))) else s1
  }

  /** The fallback step of `onCameraIntentResult`: with no photo yet, try the intent's data, then the registered location. */
  function FallBack(s: CameraState, intent: Option<Intent>): (r: CameraState)
    ensures r.(photo := s.photo) == s
    ensures s.photo.Some? ==> r.photo == s.photo
    ensures s.photo.None? && IntentData(intent).Some? ==> r.photo == IntentData(intent)
    ensures s.photo.None? && IntentData(intent).None? ==> r.photo == s.preDefined
  {
    s.(photo := OrElse(OrElse(s.photo, IntentData(intent)), s.preDefined))
  }

  /**
   * The swap step of `onCameraIntentResult`: when the chosen file is empty (length at most 0) and a
   * registered location exists, the two trade places; otherwise neither
   * changes.
   */
  function SwapIfEmpty(s: CameraState, fileLength: string -> int): (r: CameraState)
    ensures r.started == s.started && r.third == s.third && r.rotation == s.rotation
    ensures multiset{r.photo, r.preDefined} == multiset{s.photo, s.preDefined}
    ensures r.photo.Some? <==> s.photo.Some?
    ensures s.photo.Some? && fileLength(s.photo.value) <= 0 && s.preDefined.Some? ==>
              r.photo == s.preDefined && r.preDefined == s.photo
    ensures !(s.photo.Some? && fileLength(s.photo.value) <= 0) ==> r == s
  {
    if s.photo.Some? && fileLength(s.photo.value) <= 0 && s.preDefined.Some? then
      s.(photo := s.preDefined, preDefined := s.photo)
    else s
  }

  /**
   * The resolution step of `onCameraIntentResult`: both locations are resolved to file URIs; the third
   * location is dropped when it names either of them, and resolved
   * otherwise.
   */
  function ResolveUris(s: CameraState, dataPath: string -> Option<string>): (r: CameraState)
    ensures r.started == s.started && r.rotation == s.rotation
    ensures r.photo == GetFileUriFromContentUri(dataPath, s.photo)
    ensures r.preDefined == GetFileUriFromContentUri(dataPath, s.preDefined)
    ensures r.third.Some? <==> s.third.Some? && s.third != r.photo && s.third != r.preDefined
    ensures r.third.Some? ==> r.third == GetFileUriFromContentUri(dataPath, s.third)
  {
    var photo := GetFileUriFromContentUri(dataPath, s.photo);
    var preDefined := GetFileUriFromContentUri(dataPath, s.preDefined);
    var third :=
      if s.third.None? || s.third == photo || s.third == preDefined then None
      else GetFileUriFromContentUri(dataPath, s.third);
    s.(photo := photo, preDefined := preDefined, third := third)
  }

  /** The new field values and the one callback a camera result produces. */
  datatype CameraOutcome = CameraOutcome(state: CameraState, event: Event)

  /**
   * `onCameraIntentResult`. A result code other than OK reports a cancel
   * and touches nothing. An OK result reports the resolved photo as an
   * image, or an empty error when no location could be found.
   */
  function OnCameraIntentResult(s: CameraState, resultCode: int, intent: Option<Intent>, index: MediaIndex): (r: CameraOutcome)
    ensures IsTerminal(r.event)
    ensures resultCode != RESULT_OK ==> r == CameraOutcome(s, Canceled)
    ensures resultCode == RESULT_OK ==> r.state.started == s.started
    ensures resultCode == RESULT_OK && r.state.photo.Some? ==> r.event == Loaded(r.state.photo.value, "image")
    ensures resultCode == RESULT_OK && r.state.photo.None? ==> r.event == Error("")
    ensures resultCode == RESULT_OK ==>
              (r.event.Error? <==> ReadIndex(s, index.rows).photo.None? && IntentData(intent).None? && s.preDefined.None?)
  {
    if resultCode == RESULT_OK then
      var s1 := ReadIndex(s, index.rows);
      var s2 := FallBack(s1, intent);
      var s3 := SwapIfEmpty(s2, index.fileLength);
      var s4 := ResolveUris(s3, index.dataPath);
      CameraOutcome(s4, if s4.photo.Some? then Loaded(s4.photo.value, "image") else Error(""))
    else
      CameraOutcome(s, Canceled)
  }

  /**
   * A photo taken after the camera was started, in a non-empty file, is the
   * one reported, and its orientation is recorded.
   */
  lemma FreshPhotoIsReported(s: CameraState, intent: Option<Intent>, index: MediaIndex)
    requires s.started.Some? && |index.rows| > 0 && TakenAfter(index.rows[0], s.started.value)
    requires index.fileLength(FileUri(index.rows[0].path)) > 0
    ensures var r := OnCameraIntentResult(s, RESULT_OK, intent, index);
            r.event == Loaded(FileUri(index.rows[0].path), "image") && r.state.rotation == index.rows[0].orientation
  {
    ResolveKeepsFileUri(index.dataPath, index.rows[0].path);
  }

  /**
   * A stale newest row is discarded; with no URI in the intent the library
   * falls back to the location it registered and reports it as loaded. The
   * registered file is not checked for content: when it is empty, the swap
   * trades it with itself and the empty file is still reported.
   */
  lemma StaleRowFallsBackToPreDefined(s: CameraState, intent: Option<Intent>, index: MediaIndex)
    requires s.started.Some? && |index.rows| > 0 && !TakenAfter(index.rows[0], s.started.value)
    requires IntentData(intent).None? && s.preDefined.Some?
    ensures var r := OnCameraIntentResult(s, RESULT_OK, intent, index);
            r.state.photo == GetFileUriFromContentUri(index.dataPath, s.preDefined) && r.event.Loaded?
  {
  }

  /**
   * A stale newest row with a URI in the intent reports that URI (resolved),
   * when its file is not empty: the intent comes before the registered
   * location.
   */
  lemma StaleRowPrefersIntentData(s: CameraState, intent: Option<Intent>, index: MediaIndex)
    requires s.started.Some? && |index.rows| > 0 && !TakenAfter(index.rows[0], s.started.value)
    requires IntentData(intent).Some? && index.fileLength(IntentData(intent).value) > 0
    ensures var r := OnCameraIntentResult(s, RESULT_OK, intent, index);
            r.state.photo == GetFileUriFromContentUri(index.dataPath, IntentData(intent))
  {
  }

  /**
   * The photo field is not reset when a result arrives: an empty index
   * reports the photo left over from an earlier operation.
   */
  lemma EmptyIndexReportsEarlierPhoto(s: CameraState, intent: Option<Intent>, index: MediaIndex)
    requires |index.rows| == 0 && s.photo.Some? && !StartsWith(s.photo.value, "content")
    requires index.fileLength(s.photo.value) > 0
    ensures OnCameraIntentResult(s, RESULT_OK, intent, index).event == Loaded(s.photo.value, "image")
  {
  }

  /**
   * Without a start date the newest row is reported whatever its date, and
   * neither the orientation nor the third location is read.
   */
  lemma MissingStartDateKeepsNewestRow(s: CameraState, intent: Option<Intent>, index: MediaIndex)
    requires s.started.None? && |index.rows| > 0 && index.fileLength(FileUri(index.rows[0].path)) > 0
    ensures var r := OnCameraIntentResult(s, RESULT_OK, intent, index);
            r.event == Loaded(FileUri(index.rows[0].path), "image") && r.state.rotation == s.rotation
            && (r.state.third.Some? ==> r.state.third == GetFileUriFromContentUri(index.dataPath, s.third))
  {
    ResolveKeepsFileUri(index.dataPath, index.rows[0].path);
  }

  /**
   * An empty chosen file trades places with the registered location, which
   * is then reported instead.
   */
  lemma EmptyFileSwapsWithPreDefined(s: CameraState, intent: Option<Intent>, index: MediaIndex)
    requires FallBack(ReadIndex(s, index.rows), intent).photo.Some?
    requires index.fileLength(FallBack(ReadIndex(s, index.rows), intent).photo.value) <= 0
    requires s.preDefined.Some?
    ensures var r := OnCameraIntentResult(s, RESULT_OK, intent, index);
            && r.state.photo == GetFileUriFromContentUri(index.dataPath, s.preDefined)
            && r.state.preDefined == GetFileUriFromContentUri(index.dataPath, FallBack(ReadIndex(s, index.rows), intent).photo)
  {
  }

  /**
   * The third location is only ever set from the second index row taken
   * after the start date, or kept from an earlier operation.
   */
  lemma ThirdLocationOrigin(s: CameraState, resultCode: int, intent: Option<Intent>, index: MediaIndex)
    ensures var r := OnCameraIntentResult(s, resultCode, intent, index);
            r.state.third.Some? ==>
              s.third.Some? || (|index.rows| > 1 && s.started.Some? && TakenAfter(index.rows[1], s.started.value))
  {
  }
}

=== FILE: device_quirks.dfy ===
/**
 * The device allow-list that decides whether the camera is handed a
 * pre-registered output location (`isSetPreDefinedCameraUri`). Some
 * Samsung and Sony cameras mis-orient or duplicate a photo when given one,
 * so the library registers a location everywhere except on those vendors,
 * and re-enables it for the specific models and builds known to behave.
 *
 * The rules are kept as data: each is a conjunction of "field contains word"
 * clauses (the first one of "field lacks word" clauses), and the decision is
 * flag of `isSetPreDefinedCameraUri`, which starts false and is set by every rule that
 * matches.
 */
module DeviceQuirks {
  import opened Strings

  /** The five `Build` strings the allow-list reads: manufacturer, model, type, device and id. */
  datatype Device = Device(manufacturer: string, model: string, buildType: string, buildDevice: string, buildId: string)

  /** `isSetPreDefinedCameraUri` lower-cases every `Build` string before matching. */
  function FromBuild(manufacturer: string, model: string, buildType: string, buildDevice: string, buildId: string): (d: Device)
    ensures d.manufacturer == ToLower(manufacturer) && d.model == ToLower(model)
    ensures d.buildType == ToLower(buildType) && d.buildDevice == ToLower(buildDevice) && d.buildId == ToLower(buildId)
  {
    Device(ToLower(manufacturer), ToLower(model), ToLower(buildType), ToLower(buildDevice), ToLower(buildId))
  }

  /**
   * What lower-casing is for: two sets of `Build` strings that differ only
   * in the case of their letters give the same device, and so the same
   * decision.
   */
  lemma FromBuildIgnoresCase(a: Device, b: Device)
    requires SameUpToCase(a.manufacturer, b.manufacturer) && SameUpToCase(a.model, b.model)
    requires SameUpToCase(a.buildType, b.buildType) && SameUpToCase(a.buildDevice, b.buildDevice)
    requires SameUpToCase(a.buildId, b.buildId)
    ensures FromBuild(a.manufacturer, a.model, a.buildType, a.buildDevice, a.buildId)
            == FromBuild(b.manufacturer, b.model, b.buildType, b.buildDevice, b.buildId)
    ensures IsSetPreDefinedCameraUri(FromBuild(a.manufacturer, a.model, a.buildType, a.buildDevice, a.buildId))
            == IsSetPreDefinedCameraUri(FromBuild(b.manufacturer, b.model, b.buildType, b.buildDevice, b.buildId))
  {
    SameUpToCaseLowers(a.manufacturer, b.manufacturer);
    SameUpToCaseLowers(a.model, b.model);
    SameUpToCaseLowers(a.buildType, b.buildType);
    SameUpToCaseLowers(a.buildDevice, b.buildDevice);
    SameUpToCaseLowers(a.buildId, b.buildId);
  }

  datatype Field = Manufacturer | Model | BuildType | BuildDevice | BuildId

  function FieldOf(d: Device, f: Field): string {
    match f
    case Manufacturer => d.manufacturer
    case Model => d.model
    case BuildType => d.buildType
    case BuildDevice => d.buildDevice
    case BuildId => d.buildId
  }

  /** One conjunct of a rule. */
  datatype Clause = Has(field: Field, word: string) | Lacks(field: Field, word: string)

  predicate ClauseHolds(d: Device, c: Clause) {
    match c
    case Has(f, w) => Contains(FieldOf(d, f), w)
    case Lacks(f, w) => !Contains(FieldOf(d, f), w)
  }

  /** A rule is the conjunction of its clauses. */
  type Rule = seq<Clause>

  predicate RuleMatches(d: Device, rule: Rule) {
    forall i :: 0 <= i < |rule| ==> ClauseHolds(d, rule[i])
  }

  /** The rules in the order `isSetPreDefinedCameraUri` tries them. */
  const Rules: seq<Rule> := [
    [Lacks(Manufacturer, "samsung"), Lacks(Manufacturer, "sony")],
    [Has(Manufacturer, "samsung"), Has(Model, "galaxy nexus")],
    [Has(Manufacturer, "samsung"), Has(Model, "gt-n7000"), Has(BuildId, "imm76l")],
    [Has(BuildType, "userdebug"), Has(BuildDevice, "ariesve")],
    [Has(BuildType, "userdebug"), Has(BuildDevice, "crespo")],
    [Has(BuildType, "userdebug"), Has(BuildDevice, "gt-i9100")],
    [Has(Manufacturer, "samsung"), Has(Model, "sgh-t999l")],
    [Has(BuildDevice, "cooper")],
    [Has(BuildType, "userdebug"), Has(BuildDevice, "t0lte")],
    [Has(BuildType, "userdebug"), Has(BuildDevice, "kot49h")],
    [Has(BuildType, "userdebug"), Has(BuildDevice, "t03g")],
    [Has(BuildType, "userdebug"), Has(BuildDevice, "gt-i9300")],
    [Has(BuildType, "userdebug"), Has(BuildDevice, "gt-i9195")],
    [Has(BuildType, "userdebug"), Has(BuildDevice, "xperia u")]
  ]

  /** Some rule of `rules` matches `d`. */
  predicate AnyRuleMatches(d: Device, rules: seq<Rule>) {
    exists i :: 0 <= i < |rules| && RuleMatches(d, rules[i])
  }

  /**
   * The source's sequence of `if (rule) flag = true;` statements: a matching
   * rule sets the flag and no rule ever clears it.
   */
  function ApplyRules(d: Device, flag: bool, rules: seq<Rule>): (r: bool)
    ensures flag ==> r
    ensures r <==> flag || AnyRuleMatches(d, rules)
    decreases |rules|
  {
    if |rules| == 0 then flag
    else
      var r := ApplyRules(d, flag || RuleMatches(d, rules[0]), rules[1..]);
      assert AnyRuleMatches(d, rules[1..]) ==> AnyRuleMatches(d, rules) by {
        if AnyRuleMatches(d, rules[1..]) {
          var i :| 0 <= i < |rules[1..]| && RuleMatches(d, rules[1..][i]);
          assert rules[1..][i] == rules[i + 1];
        }
      }
      r
  }

  /** `isSetPreDefinedCameraUri`: true exactly when one of the rules matches the device. */
  function IsSetPreDefinedCameraUri(d: Device): (r: bool)
    ensures r <==> AnyRuleMatches(d, Rules)
  {
    ApplyRules(d, false, Rules)
  }

  /** A device from any vendor other than Samsung and Sony always gets a pre-registered location. */
  lemma OtherVendorsAlwaysSet(d: Device)
    requires !Contains(d.manufacturer, "samsung") && !Contains(d.manufacturer, "sony")
    ensures IsSetPreDefinedCameraUri(d)
  {
    assert RuleMatches(d, Rules[0]);
  }

  /**
   * The decision written out as one formula over the five strings: the
   * vendor rule, or one of the listed model and build rules.
   */
  predicate ListedModelOrBuild(d: Device) {
    var m, model, t, dev, id := d.manufacturer, d.model, d.buildType, d.buildDevice, d.buildId;
    || (Contains(m, "samsung") && Contains(model, "galaxy nexus"))
    || (Contains(m, "samsung") && Contains(model, "gt-n7000") && Contains(id, "imm76l"))
    || (Contains(t, "userdebug") && Contains(dev, "ariesve"))
    || (Contains(t, "userdebug") && Contains(dev, "crespo"))
    || (Contains(t, "userdebug") && Contains(dev, "gt-i9100"))
    || (Contains(m, "samsung") && Contains(model, "sgh-t999l"))
    || Contains(dev, "cooper")
    || (Contains(t, "userdebug") && Contains(dev, "t0lte"))
    || (Contains(t, "userdebug") && Contains(dev, "kot49h"))
    || (Contains(t, "userdebug") && Contains(dev, "t03g"))
    || (Contains(t, "userdebug") && Contains(dev, "gt-i9300"))
    || (Contains(t, "userdebug") && Contains(dev, "gt-i9195"))
    || (Contains(t, "userdebug") && Contains(dev, "xperia u"))
  }

  /** Every rule of the table that matches is one of the cases of the explicit formula. */
  lemma MatchingRuleIsListed(d: Device, i: nat)
    requires i < |Rules| && RuleMatches(d, Rules[i])
    ensures (!Contains(d.manufacturer, "samsung") && !Contains(d.manufacturer, "sony")) || ListedModelOrBuild(d)
  {
    if i == 0 {
      assert ClauseHolds(d, Rules[0][0]) && ClauseHolds(d, Rules[0][1]);
    } else if i == 2 {
      assert ClauseHolds(d, Rules[2][0]) && ClauseHolds(d, Rules[2][1]) && ClauseHolds(d, Rules[2][2]);
    } else if i == 7 {
      assert ClauseHolds(d, Rules[7][0]);
    } else {
      assert ClauseHolds(d, Rules[i][0]) && ClauseHolds(d, Rules[i][1]);
    }
  }

  /** Every case of the explicit formula is matched by some rule of the table. */
  lemma ListedHasMatchingRule(d: Device) returns (i: nat)
    requires (!Contains(d.manufacturer, "samsung") && !Contains(d.manufacturer, "sony")) || ListedModelOrBuild(d)
    ensures i < |Rules| && RuleMatches(d, Rules[i])
  {
    if !Contains(d.manufacturer, "samsung") && !Contains(d.manufacturer, "sony") {
      i := 0;
    } else {
      if Contains(d.manufacturer, "samsung") && Contains(d.model, "galaxy nexus") {
        i := 1;
      } else if Contains(d.manufacturer, "samsung") && Contains(d.model, "gt-n7000") && Contains(d.buildId, "imm76l") {
        i := 2;
      } else if Contains(d.buildType, "userdebug") && Contains(d.buildDevice, "ariesve") {
        i := 3;
      } else if Contains(d.buildType, "userdebug") && Contains(d.buildDevice, "crespo") {
        i := 4;
      } else if Contains(d.buildType, "userdebug") && Contains(d.buildDevice, "gt-i9100") {
        i := 5;
      } else if Contains(d.manufacturer, "samsung") && Contains(d.model, "sgh-t999l") {
        i := 6;
      } else if Contains(d.buildDevice, "cooper") {
        i := 7;
      } else if Contains(d.buildType, "userdebug") && Contains(d.buildDevice, "t0lte") {
        i := 8;
      } else if Contains(d.buildType, "userdebug") && Contains(d.buildDevice, "kot49h") {
        i := 9;
      } else if Contains(d.buildType, "userdebug") && Contains(d.buildDevice, "t03g") {
        i := 10;
      } else if Contains(d.buildType, "userdebug") && Contains(d.buildDevice, "gt-i9300") {
        i := 11;
      } else if Contains(d.buildType, "userdebug") && Contains(d.buildDevice, "gt-i9195") {
        i := 12;
      } else if Contains(d.buildType, "userdebug") && Contains(d.buildDevice, "xperia u") {
        i := 13;
      } else {
        assert false;
      }
    }
  }

  /**
   * The rule table decides what the explicit formula decides: true for
   * every vendor but Samsung and Sony, and otherwise exactly when a listed
   * model or build rule matches.
   */
  lemma DecisionCases(d: Device)
    ensures IsSetPreDefinedCameraUri(d) <==>
              (!Contains(d.manufacturer, "samsung") && !Contains(d.manufacturer, "sony")) || ListedModelOrBuild(d)
  {
    if AnyRuleMatches(d, Rules) {
      var i :| 0 <= i < |Rules| && RuleMatches(d, Rules[i]);
      MatchingRuleIsListed(d, i);
    }
    if (!Contains(d.manufacturer, "samsung") && !Contains(d.manufacturer, "sony")) || ListedModelOrBuild(d) {
      var i := ListedHasMatchingRule(d);
    }
  }

  /** A retail Samsung Galaxy S3 (the case the library's comment warns about) is left without a pre-registered location. */
  lemma GalaxyS3RetailNotSet()
    ensures !IsSetPreDefinedCameraUri(Device("samsung", "gt-i9300", "user", "m0", "jzo54k"))
  {
    var d := Device("samsung", "gt-i9300", "user", "m0", "jzo54k");
    ContainsAt(d.manufacturer, "samsung", 0);
    NotContainsLonger(d.model, "galaxy nexus");
    NotContainsLonger(d.buildType, "userdebug");
    NotContainsLonger(d.buildDevice, "cooper");
    NotContainsMissingChar(d.model, "gt-n7000", 'n');
    NotContainsLonger(d.model, "sgh-t999l");
    DecisionCases(d);
  }

  /** A userdebug build of the Galaxy S2 device image is re-enabled. */
  lemma GalaxyS2UserdebugSet()
    ensures IsSetPreDefinedCameraUri(Device("samsung", "gt-i9100", "userdebug", "gt-i9100", "imm76d"))
  {
    var d := Device("samsung", "gt-i9100", "userdebug", "gt-i9100", "imm76d");
    ContainsAt(d.buildType, "userdebug", 0);
    ContainsAt(d.buildDevice, "gt-i9100", 0);
    DecisionCases(d);
  }

  /**
   * Lower-casing decides the outcome: a Sony phone that reports its
   * manufacturer as "Sony" passes the vendor rule on the raw strings, but
   * once the strings are lower-cased, as the library does, no rule matches.
   */
  lemma CapitalisedSonyNotSet()
    ensures IsSetPreDefinedCameraUri(Device("Sony", "D6503", "user", "D6503", "23"))
    ensures !IsSetPreDefinedCameraUri(FromBuild("Sony", "D6503", "user", "D6503", "23"))
  {
    RawSonySet(Device("Sony", "D6503", "user", "D6503", "23"));
    LoweredSonyNotSet();
  }

  /** The same Sony phone, with its strings lower-cased, gets no pre-registered location. */
  lemma LoweredSonyNotSet()
    ensures !IsSetPreDefinedCameraUri(FromBuild("Sony", "D6503", "user", "D6503", "23"))
  {
    var d := FromBuild("Sony", "D6503", "user", "D6503", "23");
    assert d.manufacturer == "sony" by {
      assert ToLower("Sony")[0] == 's';
    }
    LowerSonyNotSet(d);
  }

  /** Compared without lower-casing, "Sony" is no Sony: the vendor rule lets it through. */
  lemma RawSonySet(d: Device)
    requires d.manufacturer == "Sony"
    ensures IsSetPreDefinedCameraUri(d)
  {
    NotContainsLonger(d.manufacturer, "samsung");
    NotContainsMissingChar(d.manufacturer, "sony", 's');
    OtherVendorsAlwaysSet(d);
  }

  /** No rule matches a lower-case Sony device whose strings are this short. */
  lemma LowerSonyNotSet(d: Device)
    requires d.manufacturer == "sony" && |d.model| == 5 && |d.buildType| == 4 && |d.buildDevice| == 5
    ensures !IsSetPreDefinedCameraUri(d)
  {
    ContainsAt(d.manufacturer, "sony", 0);
    NotContainsLonger(d.manufacturer, "samsung");
    NotContainsLonger(d.buildType, "userdebug");
    NotContainsLonger(d.buildDevice, "cooper");
    DecisionCases(d);
  }
}

=== FILE: file_ext.dfy ===
/**
 * The sample app's `fileExt`: the extension of a file path or URL, used to
 * look up a MIME type before opening a picked file. The query part (from
 * the first '?') is dropped, the text after the last '.' is taken, cut at
 * the first '%' and then at the first '/', and lower-cased. There is no
 * extension (`null`) when no '.' precedes the query.
 */
module FileExtension {
  import opened Wrappers
  import opened Strings

  /** The characters at which the extension is cut short. */
  predicate IsStop(c: char) {
    c == '%' || c == '/'
  }

  /** `s` up to (not including) the first `c`, or all of `s` when it has none. */
  function CutAt(s: string, c: char): (r: string)
    ensures c !in r
    ensures r <= s
    ensures c !in s ==> r == s
    ensures |r| < |s| ==> s[|r|] == c
  {
    var k := IndexOf(s, c);
    if k > -1 then s[..k] else s
  }

  /** The text before the first '?'. */
  function StripQuery(url: string): (r: string)
    ensures '?' !in r && r <= url
    ensures |r| < |url| ==> url[|r|] == '?'
  {
    CutAt(url, '?')
  }

  /** The text after the last '.' of the query-free part, or `None` when it has no '.'. */
  function AfterLastDot(url: string): (r: Option<string>)
    ensures r.None? <==> '.' !in StripQuery(url)
    ensures r.Some? ==> '.' !in r.value && '?' !in r.value
    ensures r.Some? ==> var u := StripQuery(url);
              |r.value| < |u| && u[|u| - |r.value| - 1] == '.' && u[|u| - |r.value|..] == r.value
  {
    var u := StripQuery(url);
    var dot := LastIndexOf(u, '.');
    if dot == -1 then None
    else
      assert forall x :: x in u[dot + 1..] ==> x in u;
      Some(u[dot + 1..])
  }

  /** `fileExt(url)`; `None` stands for the `null` it returns. */
  function FileExt(url: string): (r: Option<string>)
    ensures r.None? <==> '.' !in StripQuery(url)
    ensures r.Some? ==> '.' !in r.value && '?' !in r.value && '%' !in r.value && '/' !in r.value
    ensures r.Some? ==> forall i :: 0 <= i < |r.value| ==> !IsUpper(r.value[i])
    ensures r.Some? ==> r.value <= ToLower(AfterLastDot(url).value)
    ensures r.Some? && '%' !in AfterLastDot(url).value && '/' !in AfterLastDot(url).value ==>
              r.value == ToLower(AfterLastDot(url).value)
  {
    match AfterLastDot(url)
    case None => None
    case Some(tail) =>
      var ext := CutAt(CutAt(tail, '%'), '/');
      ExtensionFacts(tail, ext);
      Some(ToLower(ext))
  }

  /** What cutting and lower-casing leave of the text after the last '.'. */
  lemma ExtensionFacts(tail: string, ext: string)
    requires ext == CutAt(CutAt(tail, '%'), '/')
    requires '.' !in tail && '?' !in tail
    ensures '.' !in ToLower(ext) && '?' !in ToLower(ext) && '%' !in ToLower(ext) && '/' !in ToLower(ext)
    ensures forall i :: 0 <= i < |ToLower(ext)| ==> !IsUpper(ToLower(ext)[i])
    ensures ToLower(ext) <= ToLower(tail)
    ensures '%' !in tail && '/' !in tail ==> ToLower(ext) == ToLower(tail)
  {
    var a := CutAt(tail, '%');
    assert a <= tail && ext <= a;
    assert forall x :: x in ext ==> x in tail by {
      forall x | x in ext ensures x in tail {
        var i :| 0 <= i < |ext| && ext[i] == x;
        assert tail[i] == x;
      }
    }
    ToLowerKeepsNonLetters(ext, '.');
    ToLowerKeepsNonLetters(ext, '?');
    ToLowerKeepsNonLetters(ext, '%');
    ToLowerKeepsNonLetters(ext, '/');
    ToLowerPrefix(tail, |ext|);
    assert ext == tail[..|ext|];
  }

  /** `k` is where the extension ends in `tail`: the first '%' or '/', or the end. */
  predicate StopsAt(tail: string, k: nat) {
    && k <= |tail|
    && (forall j :: 0 <= j < k ==> !IsStop(tail[j]))
    && (k == |tail| || IsStop(tail[k]))
  }

  /** Cutting at '%' and then at '/' cuts at whichever of the two comes first. */
  lemma CutTwiceIsFirstStop(tail: string) returns (k: nat)
    ensures StopsAt(tail, k)
    ensures CutAt(CutAt(tail, '%'), '/') == tail[..k]
  {
    var a := CutAt(tail, '%');
    var b := CutAt(a, '/');
    k := |b|;
    assert a == tail[..|a|];
    assert b == a[..k];
    forall j | 0 <= j < k ensures !IsStop(tail[j]) {
      assert tail[j] == b[j];
      assert b[j] in b;
      assert b[j] in a by { assert a[j] == b[j]; }
    }
    if k < |tail| {
      if k < |a| {
        assert a[k] == '/';
      } else {
        assert |a| < |tail|;
      }
    }
  }

  /** There is only one place where the extension can end. */
  lemma StopsAtUnique(tail: string, k1: nat, k2: nat)
    requires StopsAt(tail, k1) && StopsAt(tail, k2)
    ensures k1 == k2
  {
  }

  /**
   * The result is exactly the lower-cased text between the last '.' and the
   * first '%' or '/' after it: `FileExt` agrees with this declarative
   * description on every input.
   */
  lemma FileExtIsTextUpToFirstStop(url: string, k: nat)
    requires AfterLastDot(url).Some? && StopsAt(AfterLastDot(url).value, k)
    ensures FileExt(url) == Some(ToLower(AfterLastDot(url).value[..k]))
  {
    var tail := AfterLastDot(url).value;
    var k' := CutTwiceIsFirstStop(tail);
    StopsAtUnique(tail, k, k');
  }

  /** Characters from the first '?' onward never affect the result. */
  lemma QueryIsIgnored(path: string, query: string)
    requires '?' !in path
    ensures FileExt(path + "?" + query) == FileExt(path)
  {
    var url := path + "?" + query;
    assert url[..|path|] == path;
    IndexOfAt(url, '?', |path|);
    assert StripQuery(url) == StripQuery(path);
    OnlyQueryFreePartMatters(url, path);
  }

  /** Two texts with the same part before the first '?' have the same extension. */
  lemma OnlyQueryFreePartMatters(a: string, b: string)
    requires StripQuery(a) == StripQuery(b)
    ensures FileExt(a) == FileExt(b)
  {
    assert AfterLastDot(a) == AfterLastDot(b);
  }

  /** The first occurrence is where the character sits with none before it. */
  lemma IndexOfAt(s: string, c: char, k: nat)
    requires k < |s| && s[k] == c && c !in s[..k]
    ensures IndexOf(s, c) == k
  {
  }
}

=== FILE: instance_state.dfy ===
/**
 * `onSaveInstanceState` / `onRestoreInstanceState`: the camera fields
 * survive the host activity being destroyed by being written into the
 * host's `Bundle` under four fixed keys, and read back when it is
 * recreated.
 *
 * A bundle is a map from key to a typed value. URIs travel as their string
 * form (`Uri.parse(u.toString())` is taken to give `u` back). The start
 * date travels through a date formatter and parser that belong to the Java
 * library; they are a parameter here, and the round trip is proved for any
 * pair in which parsing undoes formatting.
 */
module InstanceState {
  import opened Wrappers
  import opened Camera

  /** A value stored in a bundle: `putString` or `putInt`. */
  datatype Value = Str(s: string) | Int(i: int)

  type Bundle = map<string, Value>

  const DATE_KEY: string := "com.stfalcon.contentmanager.ContentManager.dateCameraIntentStarted"
  const CAMERA_URI_KEY: string := "com.stfalcon.contentmanager.ContentManager.CAMERA_PIC_URI_STATE"
  const PHOTO_URI_KEY: string := "com.stfalcon.contentmanager.ContentManager.PHOTO_URI_STATE"
  const ROTATION_KEY: string := "com.stfalcon.contentmanager.ContentManager.ROTATE_X_DEGREES_STATE"

  /** The four keys the library owns. */
  predicate IsStateKey(k: string) {
    k == DATE_KEY || k == CAMERA_URI_KEY || k == PHOTO_URI_KEY || k == ROTATION_KEY
  }

  /**
   * `dateToString` and `stringToDate` over millisecond dates; `parse`
   * answers `None` where `stringToDate` returns null.
   */
  datatype DateCodec = DateCodec(format: int -> string, parse: string -> Option<int>)

  /** Parsing gives back every formatted date. */
  ghost predicate RoundTrips(c: DateCodec) {
    forall t: int :: c.parse(c.format(t)) == Some(t)
  }

  /** `Bundle.getString`: null when the key is absent or holds something other than a string. */
  function GetString(b: Bundle, k: string): (r: Option<string>)
    ensures r.Some? <==> k in b && b[k].Str?
    ensures r.Some? ==> r.value == b[k].s
  {
    if k in b && b[k].Str? then Some(b[k].s) else None
  }

  /** `Bundle.getInt`: 0 when the key is absent or holds something other than an int. */
  function GetInt(b: Bundle, k: string): (r: int)
    ensures k in b && b[k].Int? ==> r == b[k].i
    ensures !(k in b && b[k].Int?) ==> r == 0
  {
    if k in b && b[k].Int? then b[k].i else 0
  }

  /** `put` of an optional string: nothing is written for null. */
  function PutIfPresent(b: Bundle, k: string, v: Option<string>): (r: Bundle)
    ensures v.Some? ==> r == b[k := Str(v.value)]
    ensures v.None? ==> r == b
  {
    if v.Some? then b[k := Str(v.value)] else b
  }

  /**
   * `onSaveInstanceState`: the rotation is always written; the date and the
   * two URIs only when they are not null. Keys the library does not own are
   * left as they were, and so are its own keys for null fields.
   */
  function Save(s: CameraState, c: DateCodec, b: Bundle): (r: Bundle)
    ensures r.Keys == b.Keys + {ROTATION_KEY}
                      + (if s.started.Some? then {DATE_KEY} else {})
                      + (if s.preDefined.Some? then {CAMERA_URI_KEY} else {})
                      + (if s.photo.Some? then {PHOTO_URI_KEY} else {})
    ensures r[ROTATION_KEY] == Int(s.rotation)
    ensures s.started.Some? ==> r[DATE_KEY] == Str(c.format(s.started.value))
    ensures s.preDefined.Some? ==> r[CAMERA_URI_KEY] == Str(s.preDefined.value)
    ensures s.photo.Some? ==> r[PHOTO_URI_KEY] == Str(s.photo.value)
    ensures forall k :: k in b && !IsStateKey(k) ==> r[k] == b[k]
    ensures s.started.None? && DATE_KEY in b ==> r[DATE_KEY] == b[DATE_KEY]
    ensures s.preDefined.None? && CAMERA_URI_KEY in b ==> r[CAMERA_URI_KEY] == b[CAMERA_URI_KEY]
    ensures s.photo.None? && PHOTO_URI_KEY in b ==> r[PHOTO_URI_KEY] == b[PHOTO_URI_KEY]
  {
    var b1 := PutIfPresent(b, DATE_KEY, if s.started.Some? then Some(c.format(s.started.value)) else None);
    var b2 := PutIfPresent(b1, CAMERA_URI_KEY, s.preDefined);
    var b3 := PutIfPresent(b2, PHOTO_URI_KEY, s.photo);
    b3[ROTATION_KEY := Int(s.rotation)]
  }

  /**
   * The outcome of a restore. `Uri.parse(null)` throws, and nothing in
   * `onRestoreInstanceState` catches it: a URI key holding a non-string
   * value ends the restore with that exception.
   */
  datatype Restored = Restored(state: CameraState) | Crashed

  /** `stringToDate(getString(...))`: a missing string or an unparsable one gives a null date. */
  function ReadDate(b: Bundle, c: DateCodec): (r: Option<int>)
    ensures GetString(b, DATE_KEY).None? ==> r.None?
    ensures GetString(b, DATE_KEY).Some? ==> r == c.parse(GetString(b, DATE_KEY).value)
  {
    match GetString(b, DATE_KEY)
    case None => None
    case Some(text) => c.parse(text)
  }

  /**
   * `onRestoreInstanceState`: each field whose key is present is
   * overwritten from the bundle, every other field keeps its value, and a
   * null bundle changes nothing.
   */
  function Restore(s: CameraState, c: DateCodec, bundle: Option<Bundle>): (r: Restored)
    ensures bundle.None? ==> r == Restored(s)
    ensures r.Crashed? <==>
              bundle.Some? && ((CAMERA_URI_KEY in bundle.value && !bundle.value[CAMERA_URI_KEY].Str?)
                            || (PHOTO_URI_KEY in bundle.value && !bundle.value[PHOTO_URI_KEY].Str?))
    ensures r.Restored? && bundle.Some? ==>
              var b, t := bundle.value, r.state;
              && t.third == s.third
              && t.started == (if DATE_KEY in b then ReadDate(b, c) else s.started)
              && t.preDefined == (if CAMERA_URI_KEY in b then Some(b[CAMERA_URI_KEY].s) else s.preDefined)
              && t.photo == (if PHOTO_URI_KEY in b then Some(b[PHOTO_URI_KEY].s) else s.photo)
              && t.rotation == (if ROTATION_KEY in b then GetInt(b, ROTATION_KEY) else s.rotation)
  {
    match bundle
    case None => Restored(s)
    case Some(b) =>
      var started := if DATE_KEY in b then ReadDate(b, c) else s.started;
      if CAMERA_URI_KEY in b && GetString(b, CAMERA_URI_KEY).None? then Crashed
      else
        var preDefined := if CAMERA_URI_KEY in b then GetString(b, CAMERA_URI_KEY) else s.preDefined;
        if PHOTO_URI_KEY in b && GetString(b, PHOTO_URI_KEY).None? then Crashed
        else
          var photo := if PHOTO_URI_KEY in b then GetString(b, PHOTO_URI_KEY) else s.photo;
          var rotation := if ROTATION_KEY in b then GetInt(b, ROTATION_KEY) else s.rotation;
          Restored(s.(started := started, preDefined := preDefined, photo := photo, rotation := rotation))
  }

  /**
   * Restoring what was saved into a bundle that held none of the library's
   * keys brings back every saved field: the date, both URIs and the
   * rotation. A field that was null is not written, so the restoring
   * instance keeps its own value there; the third location is never saved.
   */
  lemma SaveRestoreRoundTrip(s: CameraState, target: CameraState, c: DateCodec, b: Bundle)
    requires RoundTrips(c)
    requires forall k :: k in b ==> !IsStateKey(k)
    ensures Restore(target, c, Some(Save(s, c, b))) == Restored(CameraState(
              OrElse(s.started, target.started),
              OrElse(s.preDefined, target.preDefined),
              OrElse(s.photo, target.photo),
              target.third,
              s.rotation))
  {
    if s.started.Some? {
      var t := s.started.value;
      assert c.parse(c.format(t)) == Some(t);
    }
    var saved := Save(s, c, b);
  }

  /**
   * After the process was killed, a new instance restoring the bundle gets
   * back exactly the saved fields, with no third location.
   */
  lemma RestoreIntoFreshInstance(s: CameraState, c: DateCodec)
    requires RoundTrips(c)
    ensures Restore(Fresh, c, Some(Save(s, c, map[]))) == Restored(s.(third := None))
  {
    SaveRestoreRoundTrip(s, Fresh, c, map[]);
  }

  /** Restoring the same bundle twice gives what restoring it once gave. */
  lemma RestoreIsIdempotent(s: CameraState, c: DateCodec, b: Bundle)
    requires Restore(s, c, Some(b)).Restored?
    ensures Restore(Restore(s, c, Some(b)).state, c, Some(b)) == Restore(s, c, Some(b))
  {
  }
}

=== FILE: progress.dfy ===
/**
 * `consumeProgress`: the cosmetic progress ticker of a pick. Every firing
 * of the delayed runnable adds one to `progressPercent`, reports the new
 * value and schedules itself again while the value is below 100. The
 * counter starts at 0 when the library is constructed and is never reset,
 * so a later pick continues from where the previous one stopped. The delay
 * between firings is not modelled.
 */
module Progress {
  import opened Callbacks

  /** The counter of a newly constructed `ContentManager`. */
  const Initial: nat := 0

  /** What one firing of the runnable does. */
  datatype Tick = Tick(counter: nat, event: Event, reschedule: bool)

  /** One firing: the counter goes up by exactly one and the new value is reported. */
  function Fire(counter: nat): (t: Tick)
    ensures t.counter == counter + 1 && t.event == LoadProgress(t.counter)
    ensures t.reschedule <==> t.counter < 100
  {
    var next := counter + 1;
    Tick(next, LoadProgress(next), next < 100)
  }

  /** The events of one whole run of the ticker started with the counter at `start`. */
  function Run(start: nat): (r: seq<Event>)
    ensures |r| == if start < 99 then 100 - start else 1
    ensures forall i :: 0 <= i < |r| ==> r[i] == LoadProgress(start + i + 1)
    decreases 100 - start
  {
    var t := Fire(start);
    if t.reschedule then [t.event] + Run(t.counter) else [t.event]
  }

  /** The counter after a run started at `start`. */
  function RunEnd(start: nat): (n: nat)
    ensures n == start + |Run(start)|
  {
    if start < 99 then 100 else start + 1
  }

  /**
   * Reported values rise by one at a time, are all above 0, and a run
   * started below 100 ends at exactly 100.
   */
  lemma {:induction false} RunIsMonotone(start: nat)
    ensures forall i, j :: 0 <= i < j < |Run(start)| ==> Run(start)[i].percent < Run(start)[j].percent
    ensures forall i :: 0 <= i < |Run(start)| ==> Run(start)[i].percent > 0 && !IsTerminal(Run(start)[i])
    ensures start < 100 ==> Run(start)[|Run(start)| - 1] == LoadProgress(100)
  {
  }

  /**
   * Because the counter is never reset, a second pick after a completed one
   * reports a single value above 100 and stops.
   */
  lemma SecondRunReportsOnce()
    ensures RunEnd(Initial) == 100
    ensures Run(RunEnd(Initial)) == [LoadProgress(101)]
  {
  }
}

=== FILE: session.dfy ===
/**
 * The `ContentManager` as a whole, seen as a machine driven by the host:
 * the operations the app starts (`pickContent`, `takePhoto`), the results
 * the host hands back (`onActivityResult`, `onRequestPermissionsResult`)
 * and the firings of the progress ticker's delayed runnables. Each step
 * yields the new fields and the listener callbacks it causes, in order.
 *
 * Launching intents is not modelled: a step only records what the library
 * remembers and reports. What the platform decides (whether permission is
 * held, whether storage is mounted, what the camera app and the copy
 * worker did) arrives as part of each input.
 */
module Session {
  import opened Wrappers
  import opened Callbacks
  import opened DeviceQuirks
  import opened Camera
  import Progress

  /** Request code of the content picker. */
  const CONTENT_PICKER: int := 15
  /** Request code of the camera. */
  const CONTENT_TAKE: int := 16
  /** Request code of the storage permission request. */
  const PERMISSION_REQUEST_CODE: int := 333
  /** `PackageManager.PERMISSION_GRANTED` */
  const PERMISSION_GRANTED: int := 0

  /**
   * All fields of the library: the camera fields, the operation to repeat
   * once permission arrives (`savedTask`, `savedContent`), the file a pick
   * is copied into, and the progress counter. `scheduled` counts the
   * ticker runnables posted to the handler and not yet fired; it is the
   * handler's queue rather than a field, and only a firing of one of them
   * can move the counter.
   */
  datatype Session = Session(
    camera: CameraState,
    savedTask: int,
    savedContent: Option<Content>,
    targetFile: Option<string>,
    progress: nat,
    scheduled: nat)

  /** A newly constructed `ContentManager`, with nothing posted. */
  const Initial: Session := Session(Fresh, 0, None, None, Progress.Initial, 0)

  /**
   * What the library keeps consistent: a pending pick knows its content
   * kind, and a target file only exists for a pick whose kind is known.
   */
  predicate Valid(s: Session) {
    && (s.savedTask == CONTENT_PICKER ==> s.savedContent.Some?)
    && (s.targetFile.Some? ==> s.savedContent.Some?)
  }

  /**
   * What the platform answers when an operation starts: whether storage
   * permission is held, whether external storage is mounted, the device's
   * five `Build` strings as the platform reports them (not yet
   * lower-cased), the current time, the URI the media index hands out for
   * a new photo, whether a camera app exists, and the file `createFile`
   * made (null when it failed).
   */
  datatype Platform = Platform(
    permitted: bool,
    mounted: bool,
    build: Device,
    now: int,
    inserted: Option<string>,
    cameraFound: bool,
    created: Option<string>)

  /** How the pick's copy worker ended: it delivered the file, or it caught an exception with this message. */
  datatype CopyOutcome = Copied | CopyFailed(message: string)

  datatype Input =
    | PickContent(content: Content, platform: Platform)
    | TakePhoto(platform: Platform)
    | ActivityResult(requestCode: int, resultCode: int, intent: Option<Intent>, index: MediaIndex, copy: CopyOutcome)
    | PermissionsResult(requestCode: int, grants: seq<int>, platform: Platform)
    | ProgressTick   // one posted ticker runnable fires

  /** The fields after a step and the callbacks it made, in order. */
  datatype Outcome = Outcome(session: Session, events: seq<Event>)

  /**
   * `pickContent`: the operation is remembered before permission is
   * checked; with permission the target file is created and the picker
   * started. No callback is made either way (a missing picker app is
   * silent too).
   */
  function PickContentStep(s: Session, content: Content, p: Platform): (r: Outcome)
    ensures r.events == []
    ensures r.session.savedTask == CONTENT_PICKER && r.session.savedContent == Some(content)
    ensures r.session.targetFile == if p.permitted then p.created else s.targetFile
    ensures r.session.camera == s.camera && r.session.progress == s.progress
    ensures r.session.scheduled == s.scheduled
  {
    var s1 := s.(savedTask := CONTENT_PICKER, savedContent := Some(content));
    if p.permitted then Outcome(s1.(targetFile := p.created), []) else Outcome(s1, [])
  }

  /** The allow-list's decision for this platform: the `Build` strings are lower-cased first. */
  predicate Approved(p: Platform) {
    IsSetPreDefinedCameraUri(FromBuild(p.build.manufacturer, p.build.model, p.build.buildType,
                                       p.build.buildDevice, p.build.buildId))
  }

  /**
   * `takePhoto`: the operation is remembered before permission is checked.
   * Without mounted storage, or when no camera app exists, an empty error
   * is reported. Otherwise the start date is recorded, and on devices the
   * allow-list approves (judged on the lower-cased `Build` strings) a
   * location is registered with the media index before the camera starts;
   * elsewhere the old registered location stays.
   */
  function TakePhotoStep(s: Session, p: Platform): (r: Outcome)
    ensures r.session.savedTask == CONTENT_TAKE
    ensures r.session.savedContent == s.savedContent && r.session.targetFile == s.targetFile
    ensures r.session.progress == s.progress && r.session.scheduled == s.scheduled
    ensures r.events == [] || r.events == [Error("")]
    ensures r.events == [Error("")] <==> p.permitted && (!p.mounted || !p.cameraFound)
    ensures !(p.permitted && p.mounted) ==> r.session.camera == s.camera
    ensures p.permitted && p.mounted ==>
              && r.session.camera.started == Some(p.now)
              && r.session.camera.preDefined ==
                   (if Approved(p) then p.inserted else s.camera.preDefined)
              && r.session.camera.(started := s.camera.started, preDefined := s.camera.preDefined) == s.camera
  {
    var s1 := s.(savedTask := CONTENT_TAKE);
    if !p.permitted then Outcome(s1, [])
    else if !p.mounted then Outcome(s1, [Error("")])
    else
      var preDefined := if Approved(p) then p.inserted else s.camera.preDefined;
      var cam := s.camera.(started := Some(p.now), preDefined := preDefined);
      Outcome(s1.(camera := cam), if p.cameraFound then [] else [Error("")])
  }

  /**
   * `onActivityResult` for the picker, with `handleContentData`. A result
   * other than OK is a cancel; OK without an intent is the error
   * "Data null"; otherwise the copy worker reports the copied file with
   * the kind's MIME filter, or the message of what it caught. An intent
   * whose data URI is null cannot be opened, and a missing target file
   * cannot be written: either way the copy fails, and a copy outcome that
   * claims success is reported with an empty message. The ticker's
   * firings are steps of their own.
   */
  function PickerResult(s: Session, resultCode: int, intent: Option<Intent>, copy: CopyOutcome): (e: Event)
    requires Valid(s)
    ensures IsTerminal(e)
    ensures resultCode != RESULT_OK ==> e == Canceled
    ensures resultCode == RESULT_OK && intent.None? ==> e == Error("Data null")
    ensures e.Loaded? <==>
              resultCode == RESULT_OK && intent.Some? && intent.value.data.Some? && copy.Copied? && s.targetFile.Some?
    ensures e.Loaded? ==> e == Loaded(FileUri(s.targetFile.value), Mime(s.savedContent.value))
    ensures resultCode == RESULT_OK && intent.Some? && copy.CopyFailed? ==> e == Error(copy.message)
    ensures resultCode == RESULT_OK && intent.Some? && copy.Copied? && s.targetFile.None? ==> e == Error("")
    ensures resultCode == RESULT_OK && intent.Some? && intent.value.data.None? && copy.Copied? ==> e == Error("")
  {
    if resultCode != RESULT_OK then Canceled
    else if intent.None? then Error("Data null")
    else
      match copy
      case CopyFailed(message) => Error(message)
      case Copied =>
        if intent.value.data.None? then Error("")
        else
          match s.targetFile
          case None => Error("")
          case Some(file) => Loaded(FileUri(file), Mime(s.savedContent.value))
  }

  /**
   * `onActivityResult`: picker results, camera results, and nothing for any
   * other request code. An OK picker result with an intent starts the copy
   * worker, whose first act is to post one ticker runnable.
   */
  function ActivityResultStep(s: Session, requestCode: int, resultCode: int, intent: Option<Intent>,
                              index: MediaIndex, copy: CopyOutcome): (r: Outcome)
    requires Valid(s)
    ensures requestCode != CONTENT_PICKER && requestCode != CONTENT_TAKE ==> r == Outcome(s, [])
    ensures requestCode == CONTENT_PICKER || requestCode == CONTENT_TAKE ==>
              |r.events| == 1 && IsTerminal(r.events[0])
    ensures requestCode == CONTENT_PICKER ==> r.events == [PickerResult(s, resultCode, intent, copy)]
    ensures requestCode == CONTENT_TAKE ==> r.events == [OnCameraIntentResult(s.camera, resultCode, intent, index).event]
    ensures requestCode != CONTENT_TAKE ==>
              r.session == s.(scheduled := r.session.scheduled)
    ensures r.session.scheduled == s.scheduled + 1 <==>
              requestCode == CONTENT_PICKER && resultCode == RESULT_OK && intent.Some?
    ensures r.session.scheduled != s.scheduled + 1 ==> r.session.scheduled == s.scheduled
    ensures requestCode == CONTENT_TAKE ==>
              r.session == s.(camera := OnCameraIntentResult(s.camera, resultCode, intent, index).state)
  {
    if requestCode == CONTENT_PICKER then
      var started := resultCode == RESULT_OK && intent.Some?;
      Outcome(s.(scheduled := if started then s.scheduled + 1 else s.scheduled),
              [PickerResult(s, resultCode, intent, copy)])
    else if requestCode == CONTENT_TAKE then
      var c := OnCameraIntentResult(s.camera, resultCode, intent, index);
      Outcome(s.(camera := c.state), [c.event])
    else
      Outcome(s, [])
  }

  /** The permission request was answered with a grant. */
  predicate Granted(requestCode: int, grants: seq<int>) {
    requestCode == PERMISSION_REQUEST_CODE && |grants| > 0 && grants[0] == PERMISSION_GRANTED
  }

  /**
   * `onRequestPermissionsResult`: a grant repeats the remembered
   * operation; anything else (another request code, no answers, a denial)
   * does nothing and reports nothing.
   */
  function PermissionsResultStep(s: Session, requestCode: int, grants: seq<int>, p: Platform): (r: Outcome)
    requires Valid(s)
    ensures !Granted(requestCode, grants) ==> r == Outcome(s, [])
    ensures Granted(requestCode, grants) && s.savedTask == CONTENT_PICKER ==>
              r == PickContentStep(s, s.savedContent.value, p)
    ensures Granted(requestCode, grants) && s.savedTask == CONTENT_TAKE ==> r == TakePhotoStep(s, p)
    ensures s.savedTask != CONTENT_PICKER && s.savedTask != CONTENT_TAKE ==> r == Outcome(s, [])
  {
    if Granted(requestCode, grants) then
      if s.savedTask == CONTENT_PICKER then PickContentStep(s, s.savedContent.value, p)
      else if s.savedTask == CONTENT_TAKE then TakePhotoStep(s, p)
      else Outcome(s, [])
    else Outcome(s, [])
  }

  /**
   * One posted ticker runnable fires: the counter goes up by one, the new
   * value is reported, and the runnable posts itself again only while the
   * value is below 100. With nothing posted there is nothing to fire.
   */
  function ProgressStep(s: Session): (r: Outcome)
    ensures s.scheduled == 0 ==> r == Outcome(s, [])
    ensures s.scheduled > 0 ==> r.events == [LoadProgress(s.progress + 1)]
    ensures s.scheduled > 0 ==> r.session.progress == s.progress + 1
    ensures s.scheduled > 0 && s.progress + 1 < 100 ==> r.session.scheduled == s.scheduled
    ensures s.scheduled > 0 && s.progress + 1 >= 100 ==> r.session.scheduled == s.scheduled - 1
    ensures r.session.(progress := s.progress, scheduled := s.scheduled) == s
  {
    if s.scheduled == 0 then Outcome(s, [])
    else
      var t := Progress.Fire(s.progress);
      Outcome(s.(progress := t.counter, scheduled := if t.reschedule then s.scheduled else s.scheduled - 1),
              [t.event])
  }

  /** One step of the machine. */
  function Step(s: Session, input: Input): (r: Outcome)
    requires Valid(s)
    ensures Valid(r.session)
    ensures |r.events| <= 1
    ensures !input.ProgressTick? ==> r.session.progress == s.progress
    ensures input.ProgressTick? && s.scheduled == 0 ==> r == Outcome(s, [])
    ensures input.PickContent? || input.TakePhoto? || input.PermissionsResult? ==>
              r.events == [] || r.events == [Error("")]
  {
    match input
    case PickContent(content, p) => PickContentStep(s, content, p)
    case TakePhoto(p) => TakePhotoStep(s, p)
    case ActivityResult(requestCode, resultCode, intent, index, copy) =>
      ActivityResultStep(s, requestCode, resultCode, intent, index, copy)
    case PermissionsResult(requestCode, grants, p) => PermissionsResultStep(s, requestCode, grants, p)
    case ProgressTick => ProgressStep(s)
  }

  /** The fields after a sequence of inputs, and every callback they caused. */
  function Run(s: Session, inputs: seq<Input>): (r: Outcome)
    requires Valid(s)
    ensures Valid(r.session)
    ensures |r.events| <= |inputs|
    decreases |inputs|
  {
    if |inputs| == 0 then Outcome(s, [])
    else
      var first := Step(s, inputs[0]);
      var rest := Run(first.session, inputs[1..]);
      Outcome(rest.session, first.events + rest.events)
  }

  /** The constructed library satisfies its invariant. */
  lemma InitialIsValid()
    ensures Valid(Initial)
  {
  }

  /**
   * Every result for a pick or a photo ends in exactly one terminal
   * callback; results for other request codes change nothing.
   */
  lemma ResultEndsOperation(s: Session, requestCode: int, resultCode: int, intent: Option<Intent>,
                            index: MediaIndex, copy: CopyOutcome)
    requires Valid(s)
    ensures var r := Step(s, ActivityResult(requestCode, resultCode, intent, index, copy));
            && (requestCode == CONTENT_PICKER || requestCode == CONTENT_TAKE ==>
                  |r.events| == 1 && IsTerminal(r.events[0]))
            && (requestCode != CONTENT_PICKER && requestCode != CONTENT_TAKE ==> r == Outcome(s, []))
  {
  }

  /**
   * A picker result that is not OK is reported as a cancel, and an OK one
   * without an intent as the error "Data null"; neither posts the ticker.
   */
  lemma PickerResultReports(s: Session, resultCode: int, intent: Option<Intent>, index: MediaIndex,
                            copy: CopyOutcome)
    requires Valid(s)
    ensures resultCode != RESULT_OK ==>
              Step(s, ActivityResult(CONTENT_PICKER, resultCode, intent, index, copy)) == Outcome(s, [Canceled])
    ensures resultCode == RESULT_OK && intent.None? ==>
              Step(s, ActivityResult(CONTENT_PICKER, resultCode, intent, index, copy)) == Outcome(s, [Error("Data null")])
  {
  }

  /** A denied, unanswered or foreign permission result produces no callback and no change. */
  lemma DenialIsSilent(s: Session, requestCode: int, grants: seq<int>, p: Platform)
    requires Valid(s) && !Granted(requestCode, grants)
    ensures Step(s, PermissionsResult(requestCode, grants, p)) == Outcome(s, [])
  {
  }

  /**
   * A pick started without permission and granted afterwards ends up where
   * a pick started with permission would have.
   */
  lemma GrantedPickResumes(s: Session, content: Content, denied: Platform, p: Platform, requestCode: int, grants: seq<int>)
    requires Valid(s) && !denied.permitted && Granted(requestCode, grants)
    ensures var waiting := Step(s, PickContent(content, denied)).session;
            Step(waiting, PermissionsResult(requestCode, grants, p)).session == Step(s, PickContent(content, p)).session
  {
  }

  /**
   * The progress counter is shared by every operation: no step other than
   * a firing of the ticker moves it, and nothing resets it, so across any
   * sequence of inputs it only grows.
   */
  lemma {:induction false} ProgressNeverResets(s: Session, inputs: seq<Input>)
    requires Valid(s)
    ensures Run(s, inputs).session.progress >= s.progress
    ensures (forall i :: 0 <= i < |inputs| ==> !inputs[i].ProgressTick?) ==> Run(s, inputs).session.progress == s.progress
    decreases |inputs|
  {
    if |inputs| > 0 {
      var first := Step(s, inputs[0]);
      ProgressNeverResets(first.session, inputs[1..]);
      if forall i :: 0 <= i < |inputs| ==> !inputs[i].ProgressTick? {
        assert forall i :: 0 <= i < |inputs[1..]| ==> inputs[1..][i] == inputs[i + 1];
      }
    }
  }

  /**
   * The allow-list sees the lower-cased `Build` strings: a Sony phone that
   * reports its manufacturer as "Sony" keeps the old registered location.
   */
  lemma CapitalisedSonyKeepsLocation(s: Session, p: Platform)
    requires p.permitted && p.mounted && p.build == Device("Sony", "D6503", "user", "D6503", "23")
    ensures TakePhotoStep(s, p).session.camera.preDefined == s.camera.preDefined
  {
    LoweredSonyNotSet();
  }

  /** `n` firings of posted ticker runnables. */
  function Ticks(n: nat): seq<Input> {
    if n == 0 then [] else [ProgressTick] + Ticks(n - 1)
  }

  /**
   * A single posted runnable keeps firing until the counter reaches 100 (or
   * fires once when it is already there), reporting exactly the values of
   * a ticker run, and then nothing is posted any more.
   */
  lemma {:induction false} TickerReportsRun(s: Session)
    requires Valid(s) && s.scheduled == 1
    ensures Run(s, Ticks(|Progress.Run(s.progress)|)) ==
              Outcome(s.(progress := Progress.RunEnd(s.progress), scheduled := 0), Progress.Run(s.progress))
    decreases 100 - s.progress
  {
    var n := |Progress.Run(s.progress)|;
    var first := Step(s, ProgressTick);
    assert Ticks(n)[0] == ProgressTick && Ticks(n)[1..] == Ticks(n - 1);
    if s.progress + 1 < 100 {
      TickerReportsRun(first.session);
    }
  }

  /**
   * An OK picker result with an intent, when nothing was posted before,
   * is followed by the progress values of one ticker run, continuing from
   * the shared counter; after that a further firing finds nothing posted
   * and reports nothing.
   */
  lemma PickReportsProgressRun(s: Session, resultCode: int, intent: Option<Intent>, index: MediaIndex,
                               copy: CopyOutcome)
    requires Valid(s) && s.scheduled == 0 && resultCode == RESULT_OK && intent.Some?
    ensures var picked := Step(s, ActivityResult(CONTENT_PICKER, resultCode, intent, index, copy)).session;
            var ticked := Run(picked, Ticks(|Progress.Run(s.progress)|));
            && ticked.events == Progress.Run(s.progress)
            && ticked.session.progress == Progress.RunEnd(s.progress)
            && Step(ticked.session, ProgressTick) == Outcome(ticked.session, [])
  {
    var picked := Step(s, ActivityResult(CONTENT_PICKER, resultCode, intent, index, copy)).session;
    TickerReportsRun(picked);
  }
}

=== FILE: strings.dfy ===
/**
 * The few `java.lang.String` operations the library relies on, with the
 * meaning the Java documentation gives them. Positions are `int` so that
 * "not found" can be the `-1` that Java returns.
 */
module Strings {

  /** `s.startsWith(p)` */
  predicate StartsWith(s: string, p: string) {
    |p| <= |s| && s[..|p|] == p
  }

  /** `s.contains(p)`: `p` occurs at some position of `s`. */
  predicate Contains(s: string, p: string)
    decreases |s|
  {
    StartsWith(s, p) || (|s| > 0 && Contains(s[1..], p))
  }

  /** A word occurs in any text that has it at a known position. */
  lemma {:induction false} ContainsAt(s: string, p: string, i: nat)
    requires i + |p| <= |s| && s[i..i + |p|] == p
    ensures Contains(s, p)
    decreases i
  {
    if i > 0 {
      assert s[1..][i - 1..i - 1 + |p|] == s[i..i + |p|];
      ContainsAt(s[1..], p, i - 1);
    }
  }

  /** A word longer than the text cannot occur in it. */
  lemma {:induction false} NotContainsLonger(s: string, p: string)
    requires |s| < |p|
    ensures !Contains(s, p)
    decreases |s|
  {
    if |s| > 0 {
      NotContainsLonger(s[1..], p);
    }
  }

  /** A word holding a character the text lacks cannot occur in it. */
  lemma {:induction false} NotContainsMissingChar(s: string, p: string, c: char)
    requires c in p && c !in s
    ensures !Contains(s, p)
    decreases |s|
  {
    if |s| > 0 {
      assert forall x :: x in s[1..] ==> x in s;
      NotContainsMissingChar(s[1..], p, c);
    }
  }

  /** `s.indexOf(c)`: the first position holding `c`, or -1 when there is none. */
  function IndexOf(s: string, c: char): (r: int)
    ensures -1 <= r < |s|
    ensures r == -1 <==> c !in s
    ensures 0 <= r ==> s[r] == c && c !in s[..r]
  {
    if |s| == 0 then -1
    else if s[0] == c then 0
    else
      var k := IndexOf(s[1..], c);
      if k == -1 then -1
      else
        assert s[..k + 1] == [s[0]] + s[1..][..k];
        k + 1
  }

  /** `s.lastIndexOf(c)`: the last position holding `c`, or -1 when there is none. */
  function LastIndexOf(s: string, c: char): (r: int)
    ensures -1 <= r < |s|
    ensures r == -1 <==> c !in s
    ensures 0 <= r ==> s[r] == c && c !in s[r + 1..]
  {
    if |s| == 0 then -1
    else if s[|s| - 1] == c then |s| - 1
    else
      var k := LastIndexOf(s[..|s| - 1], c);
      assert s == s[..|s| - 1] + [s[|s| - 1]];
      if k == -1 then -1
      else
        assert s[k + 1..] == s[..|s| - 1][k + 1..] + [s[|s| - 1]];
        k
  }

  predicate IsUpper(c: char) {
    'A' <= c <= 'Z'
  }

  /** Lower-casing of one character, restricted to ASCII letters. */
  function ToLowerChar(c: char): (r: char)
    ensures !IsUpper(r)
    ensures !IsUpper(c) ==> r == c
    ensures IsUpper(c) ==> 'a' <= r <= 'z'
  {
    if IsUpper(c) then (c as int + 32) as char else c
  }

  /** `s.toLowerCase()` on ASCII letters; every other character is kept. */
  function ToLower(s: string): (r: string)
    ensures |r| == |s|
    ensures forall i :: 0 <= i < |s| ==> r[i] == ToLowerChar(s[i])
  {
    seq(|s|, i requires 0 <= i < |s| => ToLowerChar(s[i]))
  }

  /** A lower-cased text has no upper-case letter, and a character that is no letter survives lower-casing exactly where it was. */
  lemma ToLowerKeepsNonLetters(s: string, c: char)
    requires !IsUpper(c) && !('a' <= c <= 'z')
    ensures forall i :: 0 <= i < |s| ==> !IsUpper(ToLower(s)[i])
    ensures c in ToLower(s) <==> c in s
  {
    var r := ToLower(s);
    if c in s {
      var i :| 0 <= i < |s| && s[i] == c;
      assert r[i] == c;
    }
    if c in r {
      var i :| 0 <= i < |r| && r[i] == c;
      assert s[i] == c;
    }
  }

  /** The two texts differ at most in the case of their ASCII letters. */
  predicate SameUpToCase(a: string, b: string) {
    |a| == |b| && forall i :: 0 <= i < |a| ==> ToLowerChar(a[i]) == ToLowerChar(b[i])
  }

  /** Texts that differ only in letter case lower-case to the same text. */
  lemma SameUpToCaseLowers(a: string, b: string)
    requires SameUpToCase(a, b)
    ensures ToLower(a) == ToLower(b)
  {
  }

  /** Lower-casing commutes with taking a prefix. */
  lemma ToLowerPrefix(s: string, k: nat)
    requires k <= |s|
    ensures ToLower(s[..k]) == ToLower(s)[..k]
  {
  }
}

=== FILE: wrappers.dfy ===
/** Java's nullable references, as an explicit optional value. */
module Wrappers {

  /** `None` stands for a Java `null`. */
  datatype Option<+T> = None | Some(value: T)

  /** The first of `a`, `b` that is present: the `if (x == null) x = y;` idiom. */
  function OrElse<T>(a: Option<T>, b: Option<T>): (r: Option<T>)
    ensures a.Some? ==> r == a
    ensures a.None? ==> r == b
  {
    if a.Some? then a else b
  }
}
